=== FILE: README.md ===
# Repose Record and Alchemical Reduction, in Dafny

This project models two Advent of Code 2018 solutions written in Python 2: `day4.py`
(shift-log analysis) and `day5.py` (polymer reduction). It proves properties of that model.

**day4.py.** A chronologically sorted guard log is handled in four steps:

1. It is cut into shifts (`organize_by_day`).
2. Each shift's minutes go into a per-guard list of sleep/wake minutes (`organize_by_guard`). A guard gets a key only when one of the guard's shifts has a line after its start.
3. Each guard's list is read as `[asleep, awake)` pairs, giving:
   - the guard's total sleep (`find_guard_mins_asleep`);
   - the minute the guard is most often asleep (`find_min_most_likely_asleep`).
4. Two strategies pick a guard/minute pair:
   - strategy 1: the most-asleep guard (`find_guard_most_asleep`) and that guard's best minute;
   - strategy 2: the guard/minute pair with the highest count overall (`strategy_2`).

Modules:

- `ShiftLog` holds steps 1 and 2.
- `SleepStats` holds steps 3 and 4.
- `ShiftExamples` holds the worked example from the file's header comment.
- `Wrappers` holds the `Option` type. `None` stands for a Python exception: `max` of an empty sequence, `None * None`, or a shift that does not open with a guard line.

**day5.py.** A polymer is a string of letters.

- `react` makes one left-to-right pass. At each index where the unit and its neighbour are the same letter in opposite case, it replaces every occurrence of that two-unit pattern with the placeholder pair `##`. At the end of the pass it strips the placeholders.
- `fully_react` repeats passes until one changes nothing.
- `improved_react` removes both cases of one letter, then fully reacts.
- `find_shortest_polymer` takes the minimum of those lengths over the letters present.

Modules:

- `Polymer` models the pass exactly as written. It does not use a stack-based reducer.
  - `ReplacePair` is the global, non-overlapping, left-to-right `str.replace`.
  - `Scan` is the `for` loop over the range fixed when the loop starts.
  - `RemoveAll` is the final `replace('#', '')`.
  - `ReactPass` and `FullyReactLoop` are the source's loops as methods, proved equal to the functional model.
- `PolymerSearch` holds the letter-exclusion search.
- `PolymerExamples` holds the small worked examples.

Log lines are typed, not raw text. `Line(minute, event)` carries the two-digit minute field of the timestamp and one of three events: `BeginsShift(guard)`, `FallsAsleep` or `WakesUp`.

## Model

| member | source | states |
|---|---|---|
| ShiftLog.OrganizeByDay | day4.py:57-67 | joining the shifts gives back the input exactly; no shift is empty; a shift-start line occurs only first in a shift and every shift but the first begins with one; no lines gives no shifts; the first line stays first |
| ShiftLog.Collect | day4.py:60-66 | the loop, from any state whose closed shifts are well formed, ends with closed, open and remaining lines joined in order and a well-formed segmentation |
| ShiftLog.SegmentationIsUnique | day4.py:57-67 | any well-formed way of cutting the lines into shifts is the one `organize_by_day` returns, so the three shape properties characterise the result |
| ShiftLog.SegmentationsAgree | day4.py:60-66 | two well-formed segmentations with the same concatenation are equal |
| ShiftLog.SegmentsFollowShifts | day4.py:61-64 | the first shift runs exactly up to the next shift-start line after index 0 |
| ShiftLog.NextShift | day4.py:61 | the index of the next shift-start line at or after k lies between k and the end of the log |
| ShiftLog.NextShiftAt | day4.py:61 | an index j with no shift start in [k, j) and a shift start or the end at j is the next shift start |
| ShiftLog.FlattenAppend | day4.py:62 | appending a shift to the list of shifts appends its lines to the joined log |
| ShiftLog.AggregateFails | day4.py:71-72 | the guard loop raises exactly when some shift's first line is not a shift start |
| ShiftLog.AggregateKeys | day4.py:70-74 | loop invariant: the keys are the starting keys plus the guard ids of the processed shifts that have a line after the shift start, since the defaultdict creates a key only on an append |
| ShiftLog.AggregateLists | day4.py:70-74 | loop invariant: each guard's list is its starting list followed by the later-line minutes of its shifts, in log order |
| ShiftLog.AggregateTotal | day4.py:73-74 | loop invariant: each shift adds all its lines but the first to the stored minutes |
| ShiftLog.TotalMinutesAppend | day4.py:74 | appending minutes to one guard's list raises the total by their number |
| ShiftLog.TotalMinutesRemove | day4.py:70 | the total over a log is one guard's list length plus the total over the others |
| ShiftLog.OrganizeByGuard | day4.py:69-75 | fails exactly when a shift lacks its guard line; otherwise the keys are exactly the guard ids of shifts with a line after the shift start (a guard who never has a later line gets no key and an empty list on lookup), each list is that guard's later-line minutes in order across all its shifts, and the stored minutes number lines minus shifts |
| ShiftLog.OrganizeLog | day4.py:57-75 | the pipeline fails exactly when the first line is not a shift start; otherwise the stored minutes number lines minus shifts |
| SleepStats.Naps | day4.py:80 | `zip(times[0::2], times[1::2])`: the i-th pair is (times[2i], times[2i+1]) and a trailing unpaired minute is dropped |
| SleepStats.MinsAsleep | day4.py:77-81 | same guards as the input; each total is the sum of awake - asleep over the guard's pairs, non-negative when every pair is ordered |
| SleepStats.SleptNonNegative | day4.py:80 | ordered pairs give a non-negative total |
| SleepStats.CoverageSumOfNone | day4.py:87-89 | with no pairs, the counts of the minutes below any bound sum to 0 |
| SleepStats.CoverageSumOfNap | day4.py:89 | counted minute by minute below a bound, one ordered pair contributes the part of [asleep, awake) below the bound |
| SleepStats.CoverageSumSplit | day4.py:88-89 | per-minute counts split into the counts of all but the last pair plus those of the last |
| SleepStats.CoverageSumIsSlept | day4.py:77-89 | cross-check: the per-minute counts summed over the hour equal the guard's total sleep when pairs are ordered |
| SleepStats.GuardMostAsleep | day4.py:83-84 | raises exactly on an empty map; otherwise returns a present guard whose total is at least every other total, with its total |
| SleepStats.CountMinutes | day4.py:87-89 | the counter's count for every minute is the number of pairs with asleep <= m < awake; minutes never counted are absent |
| SleepStats.MostCommon | day4.py:90 | `most_common(1)` or the default: (0, 0) on an empty counter, otherwise a counted minute with the largest count |
| SleepStats.FindMinMostLikelyAsleep | day4.py:86-90 | the returned count is the returned minute's coverage and at least every minute's; when no pair covers any minute, the result is (0, 0) |
| SleepStats.Strategy1 | day4.py:92-97 | raises exactly on an empty log, which is what the pipeline hands it when no shift has a line after its start, since `max` then has nothing to choose from; otherwise the chosen guard is a most-asleep one and the chosen minute is that guard's best |
| SleepStats.Strategy2 | day4.py:106-116 | raises exactly when no guard is ever asleep; otherwise a guard of the log with a best minute whose count is at least every guard's count at every minute |
| ShiftExamples.ExampleByDay | day4.py:8-24 | the sample log splits into its five shifts |
| ShiftExamples.ExampleByGuard | day4.py:8-24 | guard 10 gets minutes 5, 25, 30, 55, 24, 29 and guard 99 gets 40, 50, 36, 46, 45, 55 |
| ShiftExamples.ExampleMinsAsleep | day4.py:45 | guard 10 sleeps 50 minutes and guard 99 sleeps 30 |
| ShiftExamples.IdleShiftStoresNothing | day4.py:69-75 | a log of one shift start and nothing else organises into an empty guard log, with no key for the guard |
| ShiftExamples.ExampleStrategy1 | day4.py:45-49 | every strategy-1 result on the sample is guard 10 at minute 24, answer 240 |
| ShiftExamples.ExampleStrategy2 | day4.py:102-104 | every strategy-2 result on the sample is guard 99 at minute 45, answer 4455 |
| Polymer.ReactsIffOppositeCase | day5.py:31 | two units react exactly when they are one letter in opposite cases |
| Polymer.NonReactingPairs | day5.py:31 | equal units, different letters and the placeholder never react; reacting is symmetric |
| Polymer.ReplacePair | day5.py:32 | `str.replace(pair, '##')` keeps the length and changes units only to placeholders |
| Polymer.ReplacePairKeeps | day5.py:32 | a unit that is neither the first nor the second unit of an occurrence of the pattern is kept, so the replace touches nothing outside the pattern |
| Polymer.ReplacePairIsGlobal | day5.py:32 | every occurrence of the pattern is overwritten, not only the one at i |
| Polymer.ReplacePairAddsMarks | day5.py:32 | a replace adds an even, non-negative number of placeholders |
| Polymer.ReplacePairMarks | day5.py:32 | a replace whose pattern occurs adds at least two placeholders |
| Polymer.Scan | day5.py:30-32 | the pass over a range fixed at entry keeps the length, so `polymer[i + 1]` stays in range, and changes units only to placeholders |
| Polymer.ScanAddsMarks | day5.py:30-32 | a pass adds an even, non-negative number of placeholders |
| Polymer.ScanUnchanged | day5.py:30-32 | a pass over a range with no reacting pair changes nothing |
| Polymer.ScanMarks | day5.py:30-32 | a pass over a range holding a reacting pair adds at least two placeholders |
| Polymer.RemoveAll | day5.py:33 | `replace(c, '')` keeps every other unit and removes all c |
| Polymer.RemoveAllAppend | day5.py:33 | removal distributes over concatenation, so order is kept |
| Polymer.React | day5.py:29-34 | the result is placeholder-free and either the input or strictly shorter; for placeholder-free input its length has the input's parity, and it equals the input exactly when the input has no adjacent reacting pair |
| Polymer.ReactPass | day5.py:29-34 | the index loop with its length-preserving invariant computes the pass |
| Polymer.PassParity | day5.py:30-33 | a pass on placeholder-free input removes an even number of units |
| Polymer.PassFixedIffInert | day5.py:30-33 | a pass on placeholder-free input is the identity exactly when no adjacent pair reacts |
| Polymer.PassShape | day5.py:33 | stripping placeholders from a length-preserving, placeholder-only rewrite gives the input or something strictly shorter |
| Polymer.FullyReduce | day5.py:36-38 | the loop ends at a string with no adjacent reacting pair that the pass leaves unchanged, no longer than the input; for `#`-free input it has the input's parity and equals the input when the input is already inert |
| Polymer.FullyReact | day5.py:36-39 | the returned length is at most the input's; for `#`-free input it has the input's parity and equals it when the input is inert |
| Polymer.FullyReactLoop | day5.py:36-39 | the `while` loop terminates, because every changing pass shortens the string, and returns the fully reduced length |
| Polymer.FullyReduceIdempotent | day5.py:36-38 | reducing a reduced polymer changes nothing |
| Polymer.ShortPolymersAreStable | day5.py:29-39 | empty and one-unit polymers pass through unchanged, so `fully_react` returns 0 or 1 |
| Polymer.CountZero | day5.py:33 | a character's count is 0 exactly when it does not occur |
| PolymerSearch.RemoveWhilePresent | day5.py:59-62 | the `while c in polymer` loop leaves no c and every other unit |
| PolymerSearch.RemoveWhilePresentIsRemoveAll | day5.py:59-60 | the loop equals a single replace |
| PolymerSearch.Excise | day5.py:58-62 | neither case of the letter remains, every unit of another type is kept with its count (the multiset of the rest is unchanged), the string does not grow |
| PolymerSearch.ExciseAppend | day5.py:58-62 | excision distributes over concatenation, so the other units keep their relative order |
| PolymerSearch.ImprovedReact | day5.py:58-63 | fully reacts the polymer with both cases of the letter removed; the length is at most the polymer's length minus the removed units of both cases (of the one case when the letter has no upper case) |
| PolymerSearch.MinOver | day5.py:66-69 | the running `min` from the start value is at most the start and every visited value, and equals one of them |
| PolymerSearch.FindShortestPolymer | day5.py:65-70 | the result is at most the length and every `improved_react` over the letters present, and equals one of them for non-empty input (0 for empty) |
| PolymerExamples.ReactPair | day5.py:10 | one pass turns `aA` into the empty polymer |
| PolymerExamples.StripNested | day5.py:33 | deleting the two placeholders between two units leaves just those units, now adjacent |
| PolymerExamples.ReactNested | day5.py:11 | one pass turns `abBA` into `aA`, because the outer pair meets only after stripping |
| PolymerExamples.FullyReactNested | day5.py:11 | `abBA` fully reacts to nothing |
| PolymerExamples.FullyReactMixed | day5.py:12 | `abAB` is inert and keeps length 4 |
| PolymerExamples.FullyReactSamePolarity | day5.py:13 | `aabAAB` is inert and keeps length 6 |

## Left out

- File reading, the module-level pipeline calls and `print` (day4.py:54-55, 92-97, 118; day5.py:24-25, 41, 72). Functions take and return values. `Strategy1` and `Strategy2` stand for the expressions printed on day4.py:97 and 116, with the product in `Choice.Answer`.
- `sorted()` over raw lines (day4.py:55). The model takes the lines in order as given. No property here depends on chronological order.
- Parsing of raw lines: `split`, `lstrip('#')`, `int`, and the fixed offsets `entry[15:17]` (day4.py:72, 74). Lines are the typed `Line` datatype. Dates and hours are dropped, since only minutes are read.
- The order of dict iteration and `Counter.most_common` ties (Python 2 hash order). `GuardMostAsleep`, `MostCommon`, `Strategy2` and `MinOver` visit keys in an unspecified order and return some maximal (or minimal) candidate.
- `FullyReduce` being equal to the stack-based (free-group) reduction. Also the claim that removing a letter never beats the plain reduced length. The code promises neither, and both need confluence arguments.
- The 16-unit sample `dabAcCaCBAcCcaDA` and its results 10 and 4 (day5.py:15-20, 48-54). These constants are not proved. Unfolding `Scan` and `ReplacePair` over a 16-character literal is too costly to verify, so no lemma states them. The small examples of day5.py:10-13 are proved instead.
- Non-ASCII text and a trailing newline in the puzzle input. Letters are ASCII. Any other character is carried as a unit that never reacts. A `#` in the input never reacts either, and the first pass deletes it along with the placeholders (day5.py:33). `PassParity`, `PassFixedIffInert` and the parity and fixed-point clauses of `React`, `FullyReduce` and `FullyReact` are stated for `#`-free input only, and so is `ShortPolymersAreStable`: a lone `#` is deleted by the pass, not kept.
- Integer width: Python integers are unbounded, and so are Dafny's.

=== FILE: polymer.dfy ===
/**
 Polymer reduction (day5.py, lines 29-39).

 A polymer is a string of units; a unit's letter is its type and its case is its
 polarity. One pass of `react` walks the string once, left to right, and whenever the
 units at i and i+1 are the same letter in opposite case it replaces EVERY occurrence
 of that two-unit pattern with the placeholder pair "##". The placeholders keep the
 string's length fixed during the pass; they are stripped at the end. `fully_react`
 repeats passes until nothing changes.
 */
module Polymer {

  /** Placeholder written over a unit destroyed during a pass. */
  const Mark: char := '#'

  /** `str.islower()` / `str.isupper()` on a single ASCII character. */
  predicate IsLower(c: char) { 'a' <= c <= 'z' }
  predicate IsUpper(c: char) { 'A' <= c <= 'Z' }

  /** `str.upper()` / `str.lower()` on a single ASCII character; other characters are unchanged. */
  function ToUpper(c: char): char { if IsLower(c) then (c as int - 32) as char else c }
  function ToLower(c: char): char { if IsUpper(c) then (c as int + 32) as char else c }

  /** The reaction test of day5.py line 31, exactly as written. */
  predicate Reacts(a: char, b: char) {
    || (IsLower(a) && b == ToUpper(a))
    || (IsUpper(a) && b == ToLower(a))
  }

  /** Two units react exactly when they are the same letter in opposite case. */
  lemma ReactsIffOppositeCase(a: char, b: char)
    ensures Reacts(a, b) <==>
      && ((IsLower(a) && IsUpper(b)) || (IsUpper(a) && IsLower(b)))
      && ToLower(a) == ToLower(b)
  {
  }

  /** Same-case pairs, different letters and the placeholder never react. */
  lemma NonReactingPairs(a: char, b: char)
    ensures a == b ==> !Reacts(a, b)
    ensures ToLower(a) != ToLower(b) ==> !Reacts(a, b)
    ensures a == Mark || b == Mark ==> !Reacts(a, b)
    ensures Reacts(a, b) <==> Reacts(b, a)
  {
  }

  /** No two adjacent units react: the polymer is fully reduced. */
  predicate Inert(p: string) {
    forall k :: 0 <= k < |p| - 1 ==> !Reacts(p[k], p[k + 1])
  }

  /** Python's `s.replace(c, '')`: every occurrence of `c` is deleted, the rest keeps its order. */
  function RemoveAll(s: string, c: char): (r: string)
    ensures multiset(r) == multiset(s)[c := 0]
    ensures c !in r
    ensures |r| == |s| - Count(s, c)
    ensures c !in s ==> r == s
    decreases |s|
  {
    if |s| == 0 then s
    else
      assert s == [s[0]] + s[1..];
      if s[0] == c then RemoveAll(s[1..], c) else [s[0]] + RemoveAll(s[1..], c)
  }

  /** Deleting a character distributes over concatenation, so the survivors keep their order. */
  lemma {:induction false} RemoveAllAppend(a: string, b: string, c: char)
    ensures RemoveAll(a + b, c) == RemoveAll(a, c) + RemoveAll(b, c)
    decreases |a|
  {
    if |a| > 0 {
      assert (a + b)[1..] == a[1..] + b;
      RemoveAllAppend(a[1..], b, c);
    } else {
      assert a + b == b;
    }
  }

  /**
   Python's `s.replace(x + y, '##')`: occurrences of the two-unit pattern are found left
   to right without overlapping, and each becomes two placeholders.
   */
  function ReplacePair(s: string, x: char, y: char): (r: string)
    ensures |r| == |s|
    ensures forall k :: 0 <= k < |s| ==> r[k] == s[k] || r[k] == Mark
    decreases |s|
  {
    if |s| < 2 then s
    else if s[0] == x && s[1] == y then [Mark, Mark] + ReplacePair(s[2..], x, y)
    else [s[0]] + ReplacePair(s[1..], x, y)
  }

  /**
   The other half of `ReplacePair`'s meaning: a unit that belongs to no occurrence of the
   pattern, neither as its first nor as its second unit, is kept.
   */
  lemma {:induction false} ReplacePairKeeps(s: string, x: char, y: char, k: nat)
    requires k < |s|
    requires !(k + 1 < |s| && s[k] == x && s[k + 1] == y)
    requires !(k >= 1 && s[k - 1] == x && s[k] == y)
    ensures ReplacePair(s, x, y)[k] == s[k]
    decreases |s|
  {
    if |s| < 2 {
    } else if s[0] == x && s[1] == y {
      assert k >= 2;
      ReplacePairKeeps(s[2..], x, y, k - 2);
    } else if k > 0 {
      ReplacePairKeeps(s[1..], x, y, k - 1);
    }
  }

  /** Number of occurrences of `c` in `s`. */
  function Count(s: string, c: char): nat
    decreases |s|
  {
    if |s| == 0 then 0 else (if s[0] == c then 1 else 0) + Count(s[1..], c)
  }

  lemma {:induction false} CountZero(s: string, c: char)
    ensures Count(s, c) == 0 <==> c !in s
    decreases |s|
  {
    if |s| > 0 {
      CountZero(s[1..], c);
      assert s == [s[0]] + s[1..];
    }
  }

  /** `Count` unfolded twice. */
  lemma CountFirstTwo(s: string, c: char)
    requires |s| >= 2
    ensures Count(s, c) == (if s[0] == c then 1 else 0) + (if s[1] == c then 1 else 0) + Count(s[2..], c)
  {
    assert s[1..][1..] == s[2..];
  }

  /** Replacing a pattern free of placeholders adds an even number of placeholders. */
  lemma {:induction false} ReplacePairAddsMarks(s: string, x: char, y: char)
    requires x != Mark && y != Mark
    ensures Count(ReplacePair(s, x, y), Mark) >= Count(s, Mark)
    ensures Count(ReplacePair(s, x, y), Mark) % 2 == Count(s, Mark) % 2
    decreases |s|
  {
    if |s| < 2 {
    } else if s[0] == x && s[1] == y {
      var r := ReplacePair(s, x, y);
      ReplacePairAddsMarks(s[2..], x, y);
      assert r[2..] == ReplacePair(s[2..], x, y);
      CountFirstTwo(r, Mark);
      CountFirstTwo(s, Mark);
    } else {
      ReplacePairAddsMarks(s[1..], x, y);
    }
  }

  /** An occurrence of the pattern at `j` adds at least two placeholders. */
  lemma {:induction false} ReplacePairMarks(s: string, x: char, y: char, j: nat)
    requires x != Mark && y != Mark
    requires j + 1 < |s| && s[j] == x && s[j + 1] == y
    ensures Count(ReplacePair(s, x, y), Mark) >= Count(s, Mark) + 2
    decreases |s|
  {
    if s[0] == x && s[1] == y {
      var r := ReplacePair(s, x, y);
      ReplacePairAddsMarks(s[2..], x, y);
      assert r[2..] == ReplacePair(s[2..], x, y);
      CountFirstTwo(r, Mark);
      CountFirstTwo(s, Mark);
    } else {
      ReplacePairMarks(s[1..], x, y, j - 1);
    }
  }

  /**
   When the pattern cannot overlap itself (x != y), the replacement is global: every
   occurrence of the pattern in `s` is overwritten.
   */
  lemma {:induction false} ReplacePairIsGlobal(s: string, x: char, y: char, j: nat)
    requires x != y
    requires j + 1 < |s| && s[j] == x && s[j + 1] == y
    ensures ReplacePair(s, x, y)[j] == Mark && ReplacePair(s, x, y)[j + 1] == Mark
    decreases |s|
  {
    if s[0] == x && s[1] == y {
      if j >= 2 {
        ReplacePairIsGlobal(s[2..], x, y, j - 2);
      } else {
        assert j == 0;
      }
    } else {
      ReplacePairIsGlobal(s[1..], x, y, j - 1);
    }
  }

  /** Iteration i of the loop on lines 30-32. */
  function Step(p: string, i: nat): (q: string)
    requires i + 1 < |p|
  {
    if Reacts(p[i], p[i + 1]) then ReplacePair(p, p[i], p[i + 1]) else p
  }

  /**
   Iterations i, i+1, ..., stop-1 of the loop on lines 30-32. The range is fixed when the
   loop starts; the working string keeps that length throughout, so `polymer[i + 1]`
   stays in range.
   */
  function Scan(p: string, i: nat, stop: nat): (r: string)
    requires stop < |p| || stop == 0
    ensures |r| == |p|
    ensures forall k :: 0 <= k < |p| ==> r[k] == p[k] || r[k] == Mark
    decreases stop - i
  {
    if i >= stop then p
    else
      var q := Step(p, i);
      var r := Scan(q, i + 1, stop);
      assert forall k :: 0 <= k < |p| ==> r[k] == p[k] || r[k] == Mark by {
        forall k | 0 <= k < |p| ensures r[k] == p[k] || r[k] == Mark {
          assert r[k] == q[k] || r[k] == Mark;
        }
      }
      r
  }

  /** A pass only ever adds placeholders, and an even number of them. */
  lemma {:induction false} ScanAddsMarks(p: string, i: nat, stop: nat)
    requires stop < |p| || stop == 0
    ensures Count(Scan(p, i, stop), Mark) >= Count(p, Mark)
    ensures Count(Scan(p, i, stop), Mark) % 2 == Count(p, Mark) % 2
    decreases stop - i
  {
    if i < stop {
      if Reacts(p[i], p[i + 1]) {
        ReplacePairAddsMarks(p, p[i], p[i + 1]);
      }
      ScanAddsMarks(Step(p, i), i + 1, stop);
    }
  }

  /** A scan over a range holding no reacting pair changes nothing. */
  lemma {:induction false} ScanUnchanged(p: string, i: nat, stop: nat)
    requires stop < |p| || stop == 0
    requires forall k :: i <= k < stop ==> !Reacts(p[k], p[k + 1])
    ensures Scan(p, i, stop) == p
    decreases stop - i
  {
    if i < stop {
      ScanUnchanged(p, i + 1, stop);
    }
  }

  /** A scan over a range holding a reacting pair writes at least two placeholders. */
  lemma {:induction false} ScanMarks(p: string, i: nat, stop: nat, j: nat)
    requires stop < |p| || stop == 0
    requires i <= j < stop && Reacts(p[j], p[j + 1])
    ensures Count(Scan(p, i, stop), Mark) >= Count(p, Mark) + 2
    decreases stop - i
  {
    if Reacts(p[i], p[i + 1]) {
      ReplacePairMarks(p, p[i], p[i + 1], i);
      ScanAddsMarks(Step(p, i), i + 1, stop);
    } else {
      ScanMarks(p, i + 1, stop, j);
    }
  }

  /** The upper end of `range(len(polymer) - 1)` on line 30. */
  function LastIndex(p: string): nat {
    if |p| == 0 then 0 else |p| - 1
  }

  /**
   `react` (lines 29-34): one left-to-right pass, then every placeholder is stripped.
   For a placeholder-free polymer, the pass is a no-op exactly when the polymer is
   inert; otherwise it removes units two at a time.
   */
  function React(p: string): (r: string)
    ensures Mark !in r
    ensures r == p || |r| < |p|
    ensures Mark !in p ==> |r| % 2 == |p| % 2
    ensures Mark !in p ==> (r == p <==> Inert(p))
  {
    var scanned := Scan(p, 0, LastIndex(p));
    PassShape(p, scanned);
    if Mark !in p then
      PassParity(p);
      PassFixedIffInert(p);
      RemoveAll(scanned, Mark)
    else
      RemoveAll(scanned, Mark)
  }

  /**
   `react` as the source writes it: an index loop over `range(len(polymer) - 1)` that
   rebinds `polymer` to the replaced string. The working string keeps its length, so
   `polymer[i + 1]` is always in range, and the loop computes the pass `React` describes.
   */
  method ReactPass(p: string) returns (r: string)
    ensures r == React(p)
    ensures Mark !in r
  {
    var polymer := p;
    var stop := LastIndex(p);
    var i := 0;
    while i < stop
      invariant i <= stop || stop == 0
      invariant |polymer| == |p|
      invariant Scan(polymer, i, stop) == Scan(p, 0, stop)
    {
      ghost var stepped := Step(polymer, i);
      if Reacts(polymer[i], polymer[i + 1]) {
        polymer := ReplacePair(polymer, polymer[i], polymer[i + 1]);
      }
      assert polymer == stepped;
      i := i + 1;
    }
    assert Scan(polymer, i, stop) == polymer;
    r := RemoveAll(polymer, Mark);
  }

  /** On a placeholder-free polymer, a pass removes an even number of units. */
  lemma {:induction false} PassParity(p: string)
    requires Mark !in p
    ensures |RemoveAll(Scan(p, 0, LastIndex(p)), Mark)| % 2 == |p| % 2
  {
    var scanned := Scan(p, 0, LastIndex(p));
    var marks := Count(scanned, Mark);
    CountZero(p, Mark);
    ScanAddsMarks(p, 0, LastIndex(p));
    assert marks % 2 == 0;
    assert |RemoveAll(scanned, Mark)| == |p| - marks;
    EvenDifference(|p|, marks);
  }

  lemma EvenDifference(a: int, b: int)
    requires b % 2 == 0
    ensures (a - b) % 2 == a % 2
  {
  }

  /** On a placeholder-free polymer, a pass changes nothing exactly when no adjacent pair reacts. */
  lemma {:induction false} PassFixedIffInert(p: string)
    requires Mark !in p
    ensures RemoveAll(Scan(p, 0, LastIndex(p)), Mark) == p <==> Inert(p)
  {
    var scanned := Scan(p, 0, LastIndex(p));
    CountZero(p, Mark);
    if Inert(p) {
      ScanUnchanged(p, 0, LastIndex(p));
    } else {
      var j :| 0 <= j < |p| - 1 && Reacts(p[j], p[j + 1]);
      ScanMarks(p, 0, LastIndex(p), j);
      assert |RemoveAll(scanned, Mark)| < |p|;
    }
  }

  /** Stripping a pass's placeholders gives back the input or something strictly shorter. */
  lemma PassShape(p: string, scanned: string)
    requires |scanned| == |p|
    requires forall k :: 0 <= k < |p| ==> scanned[k] == p[k] || scanned[k] == Mark
    ensures RemoveAll(scanned, Mark) == p || |RemoveAll(scanned, Mark)| < |p|
  {
    CountZero(scanned, Mark);
    if Mark !in scanned {
      assert forall k :: 0 <= k < |p| ==> scanned[k] == p[k];
      assert scanned == p;
    }
  }

  /**
   The loop of `fully_react` (lines 36-38): `react` is applied until it changes nothing.
   Every pass that changes the polymer shortens it, so the loop terminates.
   */
  function FullyReduce(p: string): (r: string)
    ensures Inert(r) && Mark !in r
    ensures React(r) == r
    ensures |r| <= |p|
    ensures Mark !in p ==> |r| % 2 == |p| % 2
    ensures Mark !in p && Inert(p) ==> r == p
    decreases |p|
  {
    var q := React(p);
    if p == q then
      assert Mark !in p;
      p
    else
      var r := FullyReduce(q);
      assert Mark !in p ==> |r| % 2 == |p| % 2 by {
        if Mark !in p {
          assert |q| % 2 == |p| % 2;
        }
      }
      r
  }

  /** `fully_react` (lines 36-39): the length of the fully reduced polymer. */
  function FullyReact(p: string): (n: nat)
    ensures n <= |p|
    ensures Mark !in p ==> n % 2 == |p| % 2
    ensures Mark !in p && Inert(p) ==> n == |p|
  {
    |FullyReduce(p)|
  }

  /**
   `fully_react` as the source writes it: a `while` loop that re-runs the pass until it
   changes nothing, then returns the length.
   */
  method FullyReactLoop(p: string) returns (n: nat)
    ensures n == FullyReact(p)
  {
    var polymer := p;
    var reacted := ReactPass(polymer);
    while polymer != reacted
      invariant reacted == React(polymer)
      invariant FullyReduce(polymer) == FullyReduce(p)
      decreases |polymer|
    {
      polymer := reacted;
      reacted := ReactPass(polymer);
    }
    n := |polymer|;
  }

  /** A fully reduced polymer is a fixed point of the reducer. */
  lemma FullyReduceIdempotent(p: string)
    ensures FullyReduce(FullyReduce(p)) == FullyReduce(p)
    ensures FullyReact(FullyReduce(p)) == FullyReact(p)
  {
  }

  /** Empty and one-unit polymers pass through unchanged. */
  lemma ShortPolymersAreStable(p: string)
    requires |p| <= 1 && Mark !in p
    ensures React(p) == p
    ensures FullyReact(p) == |p|
  {
  }
}

=== FILE: polymer_examples.dfy ===
/**
 The small worked examples in the header comment of day5.py (lines 10-13): `aA` and
 `abBA` react away completely, `abAB` and `aabAAB` do not react at all.
 */
module PolymerExamples {
  import opened Polymer

  /** `aA`: the one pair is marked and stripped in a single pass. */
  lemma ReactPair(p: string)
    requires p == "aA"
    ensures React(p) == ""
  {
    assert Reacts(p[0], p[1]);
    assert ReplacePair(p, 'a', 'A') == "##";
    assert Scan(p, 0, 1) == Scan("##", 1, 1);
    assert RemoveAll("##", Mark) == "";
  }

  /** A fully reacted `aA` is empty. */
  lemma FullyReactPair(p: string)
    requires p == "aA"
    ensures FullyReduce(p) == "" && FullyReact(p) == 0
  {
    ReactPair(p);
    ShortPolymersAreStable("");
  }

  /** The replace of `bB` in `abBA`: only the inner pair matches. */
  lemma ReplaceInner(p: string)
    requires p == "abBA"
    ensures ReplacePair(p, 'b', 'B') == "a##A"
  {
    assert ReplacePair(p[1..], 'b', 'B') == "##A" by {
      assert p[1..][2..] == "A";
    }
  }

  /** The pass over `abBA` marks the inner pair and nothing else. */
  lemma ScanNested(p: string)
    requires p == "abBA"
    ensures Scan(p, 0, 3) == "a##A"
  {
    var q := "a##A";
    assert !Reacts(p[0], p[1]) && Reacts(p[1], p[2]);
    ReplaceInner(p);
    assert Scan(p, 0, 3) == Scan(q, 2, 3);
    assert !Reacts(q[2], q[3]);
  }

  /** Stripping the placeholders between two units, as in `a##A`. */
  lemma StripNested(x: char, y: char)
    requires x != Mark && y != Mark
    ensures RemoveAll([x, Mark, Mark, y], Mark) == [x, y]
  {
    var q := [x, Mark, Mark, y];
    assert RemoveAll([y], Mark) == [y];
    assert RemoveAll([Mark, y], Mark) == [y] by {
      assert [Mark, y][1..] == [y];
    }
    assert RemoveAll([Mark, Mark, y], Mark) == [y] by {
      assert [Mark, Mark, y][1..] == [Mark, y];
    }
    assert RemoveAll(q, Mark) == [x] + [y] by {
      assert q[1..] == [Mark, Mark, y];
    }
  }

  /**
   `abBA`: one pass removes only `bB`. The outer `a` and `A` become adjacent only after
   the placeholders are stripped, so they wait for the next pass.
   */
  lemma ReactNested(p: string)
    requires p == "abBA"
    ensures React(p) == "aA"
  {
    ScanNested(p);
    StripNested('a', 'A');
  }

  /** `abBA` needs two passes and leaves nothing. */
  lemma FullyReactNested(p: string)
    requires p == "abBA"
    ensures FullyReduce(p) == "" && FullyReact(p) == 0
  {
    ReactNested(p);
    FullyReactPair("aA");
  }

  /** `abAB`: no two adjacent units are of the same type, so nothing happens. */
  lemma FullyReactMixed(p: string)
    requires p == "abAB"
    ensures Inert(p) && React(p) == p && FullyReact(p) == 4
  {
    assert !Reacts(p[0], p[1]) && !Reacts(p[1], p[2]) && !Reacts(p[2], p[3]);
  }

  /** `aabAAB`: `aa` and `AA` have matching polarities, so nothing happens. */
  lemma FullyReactSamePolarity(p: string)
    requires p == "aabAAB"
    ensures Inert(p) && React(p) == p && FullyReact(p) == 6
  {
    assert !Reacts(p[0], p[1]) && !Reacts(p[1], p[2]) && !Reacts(p[2], p[3]);
    assert !Reacts(p[3], p[4]) && !Reacts(p[4], p[5]);
  }
}

=== FILE: polymer_search.dfy ===
/**
 Letter-exclusion search (day5.py, lines 58-70): remove both cases of one unit type,
 fully react what is left, and keep the shortest result over the types present.
 */
module PolymerSearch {
  import opened Polymer

  /**
   One `while c in polymer: polymer = polymer.replace(c, '')` loop (lines 59-60 and
   61-62). A single replace already deletes every occurrence, so the loop body runs at
   most once; the recursion mirrors the loop as written.
   */
  function RemoveWhilePresent(p: string, c: char): (r: string)
    ensures c !in r
    ensures multiset(r) == multiset(p)[c := 0]
    decreases |p|
  {
    if c in p then
      CountZero(p, c);
      RemoveWhilePresent(RemoveAll(p, c), c)
    else
      p
  }

  /** The loop of lines 59-60 is exactly one `replace`. */
  lemma RemoveWhilePresentIsRemoveAll(p: string, c: char)
    ensures RemoveWhilePresent(p, c) == RemoveAll(p, c)
  {
    if c in p {
      CountZero(p, c);
    }
  }

  /** The polymer `improved_react` hands to `fully_react`: both cases of `letter` removed. */
  function Excise(p: string, letter: char): (q: string)
    ensures letter !in q && ToUpper(letter) !in q
    ensures multiset(q) == multiset(p)[letter := 0][ToUpper(letter) := 0]
    ensures |q| <= |p|
  {
    var q := RemoveWhilePresent(RemoveWhilePresent(p, letter), ToUpper(letter));
    assert multiset(q)[letter] == 0;
    assert |multiset(q)| <= |multiset(p)|;
    q
  }

  /** Removing a unit type keeps every other unit, in its original relative order. */
  lemma ExciseAppend(a: string, b: string, letter: char)
    ensures Excise(a + b, letter) == Excise(a, letter) + Excise(b, letter)
  {
    var u := ToUpper(letter);
    RemoveWhilePresentIsRemoveAll(a + b, letter);
    RemoveWhilePresentIsRemoveAll(a, letter);
    RemoveWhilePresentIsRemoveAll(b, letter);
    RemoveAllAppend(a, b, letter);
    var a1, b1 := RemoveAll(a, letter), RemoveAll(b, letter);
    RemoveWhilePresentIsRemoveAll(a1 + b1, u);
    RemoveWhilePresentIsRemoveAll(a1, u);
    RemoveWhilePresentIsRemoveAll(b1, u);
    RemoveAllAppend(a1, b1, u);
  }

  /**
   `improved_react` (lines 58-63): the fully reacted length once both cases of `letter`
   are gone. Removing a unit type and reacting never lengthens the polymer, and every
   unit of the removed type is gone from the count.
   */
  function ImprovedReact(p: string, letter: char): (n: nat)
    ensures n <= |p|
    ensures n <= |p| - multiset(p)[letter]
    ensures ToUpper(letter) != letter ==>
      n <= |p| - multiset(p)[letter] - multiset(p)[ToUpper(letter)]
  {
    var q := Excise(p, letter);
    assert |multiset(q)| == |q|;
    FullyReact(q)
  }

  /** `set(polymer.lower())` on line 67: the unit types present. */
  function UnitTypes(p: string): set<char> {
    set c | c in p :: ToLower(c)
  }

  /** Some item of `items` has value `m` under `f`. */
  predicate Attained(items: set<char>, f: char -> nat, m: nat) {
    exists c :: c in items && m == f(c)
  }

  /**
   What a running `min` that starts from `start` and visits every item can end with:
   no more than the start or any item's value, and equal to one of them.
   */
  predicate IsMinOver(items: set<char>, start: nat, f: char -> nat, m: nat) {
    && m <= start
    && (forall c :: c in items ==> m <= f(c))
    && (m == start || Attained(items, f, m))
  }

  /**
   `find_shortest_polymer` (lines 65-70): start from `len(polymer)` and take the minimum
   with `improved_react` over every unit type present. The result is at most the length
   and every such value, and equals one of them; for the empty polymer it is 0.
   */
  method FindShortestPolymer(p: string) returns (shortest: nat)
    ensures IsMinOver(UnitTypes(p), |p|, (c: char) => ImprovedReact(p, c), shortest)
    ensures |p| > 0 ==> Attained(UnitTypes(p), (c: char) => ImprovedReact(p, c), shortest)
  {
    shortest := MinOver(UnitTypes(p), |p|, (c: char) => ImprovedReact(p, c));
    if |p| > 0 {
      var c := ToLower(p[0]);
      assert c in UnitTypes(p);
    }
  }

  /**
   The loop of lines 68-69: `start` lowered by `min` with `f(c)` for every `c` in `items`,
   visited in whatever order the set yields.
   */
  method MinOver(items: set<char>, start: nat, f: char -> nat) returns (m: nat)
    ensures IsMinOver(items, start, f, m)
  {
    m := start;
    var todo := items;
    while todo != {}
      invariant todo <= items
      invariant m <= start
      invariant forall c :: c in items - todo ==> m <= f(c)
      invariant m == start || exists c :: c in items - todo && m == f(c)
      decreases todo
    {
      var c :| c in todo;
      m := if f(c) < m then f(c) else m;
      todo := todo - {c};
    }
  }
}

=== FILE: shift_examples.dfy ===
/**
 The worked example in the header comment of day4.py (lines 8-24, 45, 49, 102-104):
 five shifts of guards #10 and #99, with answers 240 and 4455.
 */
module ShiftExamples {
  import opened Wrappers
  import opened ShiftLog
  import opened SleepStats

  /** The seventeen-line example log, already in chronological order. */
  function ExampleLog(): seq<Line> {
    [ Line(0, BeginsShift(10)), Line(5, FallsAsleep), Line(25, WakesUp),
      Line(30, FallsAsleep), Line(55, WakesUp),
      Line(58, BeginsShift(99)), Line(40, FallsAsleep), Line(50, WakesUp),
      Line(5, BeginsShift(10)), Line(24, FallsAsleep), Line(29, WakesUp),
      Line(2, BeginsShift(99)), Line(36, FallsAsleep), Line(46, WakesUp),
      Line(3, BeginsShift(99)), Line(45, FallsAsleep), Line(55, WakesUp) ]
  }

  /** Its five shifts. */
  function ExampleShifts(): seq<seq<Line>> {
    [ [Line(0, BeginsShift(10)), Line(5, FallsAsleep), Line(25, WakesUp),
       Line(30, FallsAsleep), Line(55, WakesUp)],
      [Line(58, BeginsShift(99)), Line(40, FallsAsleep), Line(50, WakesUp)],
      [Line(5, BeginsShift(10)), Line(24, FallsAsleep), Line(29, WakesUp)],
      [Line(2, BeginsShift(99)), Line(36, FallsAsleep), Line(46, WakesUp)],
      [Line(3, BeginsShift(99)), Line(45, FallsAsleep), Line(55, WakesUp)] ]
  }

  /** Each guard's minutes across its shifts. */
  function ExampleSleepLog(): SleepLog {
    map[10 := [5, 25, 30, 55, 24, 29], 99 := [40, 50, 36, 46, 45, 55]]
  }

  /** Joining the five shifts gives back the log. */
  lemma ExampleFlatten(d: seq<seq<Line>>)
    requires d == ExampleShifts()
    ensures Flatten(d) == ExampleLog()
  {
    assert Flatten(d[4..]) == d[4] + Flatten(d[5..]);
    assert Flatten(d[3..]) == d[3] + Flatten(d[4..]);
    assert Flatten(d[2..]) == d[2] + Flatten(d[3..]);
    assert Flatten(d[1..]) == d[1] + Flatten(d[2..]);
  }

  /** Every example shift opens with its guard's line and holds no other. */
  lemma ExampleSegmented(d: seq<seq<Line>>)
    requires d == ExampleShifts()
    ensures WellSegmented(d)
    ensures forall i :: 0 <= i < |d| ==> ShiftGuard(d[i]).Some?
  {
  }

  /**
   A log holding one shift start and nothing else stores no guard at all: the inner loop
   of lines 73-74 never runs, so the defaultdict never creates guard 10's key, and the
   `max` of line 84 then has nothing to choose from.
   */
  lemma IdleShiftStoresNothing(lines: seq<Line>)
    requires lines == [Line(0, BeginsShift(10))]
    ensures OrganizeByGuard(OrganizeByDay(lines)) == Some(map[])
  {
    var d := OrganizeByDay(lines);
    assert d == [lines] by {
      assert WellSegmented([lines]) && Flatten([lines]) == lines;
      SegmentationIsUnique(lines, [lines]);
    }
    assert GuardsOf(d) == {};
  }

  /** The example log is cut into its five shifts. */
  lemma ExampleByDay(lines: seq<Line>)
    requires lines == ExampleLog()
    ensures OrganizeByDay(lines) == ExampleShifts()
  {
    var d := ExampleShifts();
    ExampleFlatten(d);
    ExampleSegmented(d);
    SegmentationIsUnique(lines, d);
  }

  /** The minutes after the shift start of a three-line shift. */
  lemma MinutesOfShort(day: seq<Line>)
    requires |day| == 3
    ensures Minutes(day[1..]) == [day[1].minute, day[2].minute]
  {
  }

  /** The minutes after the shift start of a five-line shift. */
  lemma MinutesOfLong(day: seq<Line>)
    requires |day| == 5
    ensures Minutes(day[1..]) == [day[1].minute, day[2].minute, day[3].minute, day[4].minute]
  {
  }

  /** Both guards of the example have shifts, and no one else. */
  lemma ExampleGuards(d: seq<seq<Line>>)
    requires d == ExampleShifts()
    ensures GuardsOf(d) == {10, 99}
  {
    assert GuardsOf(d[4..]) == {99} + GuardsOf(d[5..]);
    assert GuardsOf(d[3..]) == {99} + GuardsOf(d[4..]);
    assert GuardsOf(d[2..]) == {10} + GuardsOf(d[3..]);
    assert GuardsOf(d[1..]) == {99} + GuardsOf(d[2..]);
  }

  /** Guard #10's minutes come from the first and third shifts. */
  lemma ExampleMinutes10(d: seq<seq<Line>>)
    requires d == ExampleShifts()
    ensures MinutesOf(d, 10) == [5, 25, 30, 55, 24, 29]
  {
    MinutesOfLong(d[0]);
    MinutesOfShort(d[2]);
    assert MinutesOf(d[4..], 10) == [] + MinutesOf(d[5..], 10);
    assert MinutesOf(d[3..], 10) == [] + MinutesOf(d[4..], 10);
    assert MinutesOf(d[2..], 10) == [24, 29] + MinutesOf(d[3..], 10);
    assert MinutesOf(d[1..], 10) == [] + MinutesOf(d[2..], 10);
  }

  /** Guard #99's minutes come from the second, fourth and fifth shifts. */
  lemma ExampleMinutes99(d: seq<seq<Line>>)
    requires d == ExampleShifts()
    ensures MinutesOf(d, 99) == [40, 50, 36, 46, 45, 55]
  {
    MinutesOfShort(d[1]);
    MinutesOfShort(d[3]);
    MinutesOfShort(d[4]);
    assert MinutesOf(d[4..], 99) == [45, 55] + MinutesOf(d[5..], 99);
    assert MinutesOf(d[3..], 99) == [36, 46] + MinutesOf(d[4..], 99);
    assert MinutesOf(d[2..], 99) == [] + MinutesOf(d[3..], 99);
    assert MinutesOf(d[1..], 99) == [40, 50] + MinutesOf(d[2..], 99);
  }

  /** A log with the keys and lists the reference definitions give is the result. */
  lemma ByGuardFromReference(d: seq<seq<Line>>, log: SleepLog)
    requires forall i :: 0 <= i < |d| ==> ShiftGuard(d[i]).Some?
    requires log.Keys == GuardsOf(d)
    requires forall g :: g in log ==> log[g] == MinutesOf(d, g)
    ensures OrganizeByGuard(d) == Some(log)
  {
    var r := OrganizeByGuard(d);
    assert r.Some?;
    var m := r.value;
    assert m.Keys == log.Keys;
    forall g | g in log
      ensures m[g] == log[g]
    {
    }
    assert m == log;
  }

  /** The example's guard lists are the reference lists of the example shifts. */
  lemma ExampleReference(d: seq<seq<Line>>, log: SleepLog)
    requires d == ExampleShifts() && log == ExampleSleepLog()
    ensures forall g :: g in log ==> log[g] == MinutesOf(d, g)
  {
    forall g | g in log
      ensures log[g] == MinutesOf(d, g)
    {
      if g == 10 {
        ExampleMinutes10(d);
      } else {
        ExampleMinutes99(d);
      }
    }
  }

  /** The five example shifts give guard #10 and guard #99 their minute lists. */
  lemma ExampleShiftsByGuard(d: seq<seq<Line>>)
    requires d == ExampleShifts()
    ensures OrganizeByGuard(d) == Some(ExampleSleepLog())
  {
    var log := ExampleSleepLog();
    ExampleSegmented(d);
    ExampleGuards(d);
    ExampleReference(d, log);
    ByGuardFromReference(d, log);
  }

  /** Guard #10 has minutes 5, 25, 30, 55, 24, 29 and guard #99 has 40, 50, 36, 46, 45, 55. */
  lemma ExampleByGuard(lines: seq<Line>)
    requires lines == ExampleLog()
    ensures OrganizeByGuard(OrganizeByDay(lines)) == Some(ExampleSleepLog())
  {
    ExampleByDay(lines);
    ExampleShiftsByGuard(OrganizeByDay(lines));
  }

  /** Six minutes make three naps. */
  lemma NapsOfSix(t: seq<nat>)
    requires |t| == 6
    ensures Naps(t) == [Nap(t[0], t[1]), Nap(t[2], t[3]), Nap(t[4], t[5])]
  {
    var naps := Naps(t);
    assert naps[0] == Nap(t[0], t[1]) && naps[1] == Nap(t[2], t[3]) && naps[2] == Nap(t[4], t[5]);
  }

  /** The count of a minute over three naps. */
  lemma CoverageOfThree(a: Nap, b: Nap, c: Nap, m: nat)
    ensures Coverage([a, b, c], m) == Covers(a, m) + Covers(b, m) + Covers(c, m)
  {
    assert Coverage([a], m) == Coverage([], m) + Covers(a, m);
    assert Coverage([a, b], m) == Coverage([a], m) + Covers(b, m) by { assert [a, b][..1] == [a]; }
    assert Coverage([a, b, c], m) == Coverage([a, b], m) + Covers(c, m) by { assert [a, b, c][..2] == [a, b]; }
  }

  /** The total sleep of three naps. */
  lemma SleptOfThree(a: Nap, b: Nap, c: Nap)
    ensures Slept([a, b, c]) == (a.awake - a.asleep) + (b.awake - b.asleep) + (c.awake - c.asleep)
  {
    assert Slept([a]) == Slept([]) + (a.awake - a.asleep);
    assert Slept([a, b]) == Slept([a]) + (b.awake - b.asleep) by { assert [a, b][..1] == [a]; }
    assert Slept([a, b, c]) == Slept([a, b]) + (c.awake - c.asleep) by { assert [a, b, c][..2] == [a, b]; }
  }

  /** The naps of both guards. */
  lemma ExampleNaps(log: SleepLog)
    requires log == ExampleSleepLog()
    ensures Naps(log[10]) == [Nap(5, 25), Nap(30, 55), Nap(24, 29)]
    ensures Naps(log[99]) == [Nap(40, 50), Nap(36, 46), Nap(45, 55)]
  {
    NapsOfSix(log[10]);
    NapsOfSix(log[99]);
  }

  /** Guard #10 sleeps 20 + 25 + 5 = 50 minutes, guard #99 sleeps 10 + 10 + 10 = 30. */
  lemma ExampleMinsAsleep(log: SleepLog)
    requires log == ExampleSleepLog()
    ensures MinsAsleep(log) == map[10 := 50, 99 := 30]
  {
    ExampleNaps(log);
    var totals := MinsAsleep(log);
    assert totals.Keys == {10, 99};
    SleptOfThree(Nap(5, 25), Nap(30, 55), Nap(24, 29));
    assert totals[10] == 50;
    SleptOfThree(Nap(40, 50), Nap(36, 46), Nap(45, 55));
    assert totals[99] == 30;
  }

  /** Guard #10 is the only guard with the most minutes asleep. */
  lemma ExampleMostAsleep(log: SleepLog, g: nat)
    requires log == ExampleSleepLog()
    requires IsMostAsleep(MinsAsleep(log), g)
    ensures g == 10
  {
    ExampleMinsAsleep(log);
    var totals := MinsAsleep(log);
    assert totals[10] == 50 && totals[99] == 30;
  }

  /** Minute 24 is the only minute at which guard #10 slept twice. */
  lemma ExampleBestMinute10(log: SleepLog, minute: nat)
    requires log == ExampleSleepLog()
    requires IsBestMinute(Naps(log[10]), minute)
    ensures minute == 24
  {
    ExampleNaps(log);
    var a, b, d := Nap(5, 25), Nap(30, 55), Nap(24, 29);
    CoverageOfThree(a, b, d, 24);
    CoverageOfThree(a, b, d, minute);
  }

  /** Strategy 1 on the example can only choose guard #10 at minute 24: 10 * 24 = 240. */
  lemma ExampleStrategy1(log: SleepLog, c: Choice)
    requires log == ExampleSleepLog()
    requires IsMostAsleep(MinsAsleep(log), c.guard)
    requires IsBestMinute(Naps(log[c.guard]), c.minute)
    ensures c == Choice(10, 24) && c.Answer() == 240
  {
    ExampleMostAsleep(log, c.guard);
    ExampleBestMinute10(log, c.minute);
  }

  /** Strategy 2 on the example can only choose guard #99 at minute 45: 99 * 45 = 4455. */
  lemma ExampleStrategy2(log: SleepLog, c: Choice)
    requires log == ExampleSleepLog()
    requires c.guard in log
    requires forall g, m :: g in log ==>
      Coverage(Naps(log[g]), m) <= Coverage(Naps(log[c.guard]), c.minute)
    ensures c == Choice(99, 45) && c.Answer() == 4455
  {
    ExampleNaps(log);
    var a, b, d := Nap(5, 25), Nap(30, 55), Nap(24, 29);
    var e, f, h := Nap(40, 50), Nap(36, 46), Nap(45, 55);
    CoverageOfThree(e, f, h, 45);
    assert Coverage(Naps(log[99]), 45) == 3;
    CoverageOfThree(a, b, d, c.minute);
    CoverageOfThree(e, f, h, c.minute);
  }
}

=== FILE: shift_log.dfy ===
/**
 Shift-log organisation (day4.py, lines 57-75).

 The chronologically sorted log is cut into shifts, one per "Guard #id begins shift"
 line, and the minute fields of every later line of a shift are appended, in order, to
 that guard's list. Consecutive pairs of a guard's list are the minute it fell asleep
 and the minute it woke up.
 */
module ShiftLog {
  import opened Wrappers

  datatype Event = BeginsShift(guard: nat) | FallsAsleep | WakesUp

  /**
   One log line, already parsed: the minute field of its timestamp (the two digits at
   offsets 15-16 of the raw line) and its event.
   */
  datatype Line = Line(minute: nat, event: Event)

  /** `'Guard' in entry` (line 61). */
  predicate StartsShift(l: Line) {
    l.event.BeginsShift?
  }

  /** Concatenation of a list of shifts. */
  function Flatten(days: seq<seq<Line>>): seq<Line>
    decreases |days|
  {
    if |days| == 0 then [] else days[0] + Flatten(days[1..])
  }

  lemma {:induction false} FlattenAppend(days: seq<seq<Line>>, day: seq<Line>)
    ensures Flatten(days + [day]) == Flatten(days) + day
    decreases |days|
  {
    if |days| == 0 {
      assert days + [day] == [day];
      assert Flatten([day]) == day + Flatten([]);
    } else {
      assert (days + [day])[1..] == days[1..] + [day];
      FlattenAppend(days[1..], day);
    }
  }

  /**
   The shape `organize_by_day` produces: no shift is empty, a shift-start line occurs
   only as the first line of a shift, and every shift but the first begins with one.
   */
  predicate WellSegmented(days: seq<seq<Line>>) {
    && (forall i :: 0 <= i < |days| ==> |days[i]| > 0)
    && (forall i, k :: 0 <= i < |days| && 0 < k < |days[i]| ==> !StartsShift(days[i][k]))
    && (forall i :: 0 < i < |days| ==> StartsShift(days[i][0]))
  }

  /**
   The loop of lines 60-66 from the current line on: `closed` is `logs_by_day`, `open`
   is `day_log`.
   */
  function Collect(rest: seq<Line>, closed: seq<seq<Line>>, open: seq<Line>): (days: seq<seq<Line>>)
    requires WellSegmented(closed)
    requires forall k :: 0 < k < |open| ==> !StartsShift(open[k])
    requires |closed| > 0 ==> |open| > 0 && StartsShift(open[0])
    ensures Flatten(days) == Flatten(closed) + open + rest
    ensures WellSegmented(days)
    decreases |rest|
  {
    if |rest| == 0 then
      if |open| > 0 then
        FlattenAppend(closed, open);
        closed + [open]
      else
        closed
    else
      assert rest == [rest[0]] + rest[1..];
      if StartsShift(rest[0]) && |open| > 0 then
        FlattenAppend(closed, open);
        Collect(rest[1..], closed + [open], [rest[0]])
      else
        Collect(rest[1..], closed, open + [rest[0]])
  }

  /**
   `organize_by_day` (lines 57-67): the shifts, concatenated, are the log itself, and a
   new shift starts at every shift-start line except a leading one.
   */
  function OrganizeByDay(lines: seq<Line>): (days: seq<seq<Line>>)
    ensures Flatten(days) == lines
    ensures WellSegmented(days)
    ensures |days| == 0 <==> |lines| == 0
    ensures |days| > 0 ==> days[0][0] == lines[0]
  {
    var days := Collect(lines, [], []);
    assert |days| > 0 ==> Flatten(days) == days[0] + Flatten(days[1..]);
    days
  }

  /** The first index at or after `k` that holds a shift-start line, or |lines|. */
  function NextShift(lines: seq<Line>, k: nat): (j: nat)
    requires k <= |lines|
    ensures k <= j <= |lines|
    decreases |lines| - k
  {
    if k == |lines| then k else if StartsShift(lines[k]) then k else NextShift(lines, k + 1)
  }

  lemma {:induction false} NextShiftAt(lines: seq<Line>, k: nat, j: nat)
    requires k <= j <= |lines|
    requires forall t :: k <= t < j ==> !StartsShift(lines[t])
    requires j == |lines| || StartsShift(lines[j])
    ensures NextShift(lines, k) == j
    decreases j - k
  {
    if k < j {
      NextShiftAt(lines, k + 1, j);
    }
  }

  /**
   The shape determines the segmentation: any well-segmented split of the log is the
   one `organize_by_day` returns.
   */
  lemma SegmentationIsUnique(lines: seq<Line>, days: seq<seq<Line>>)
    requires Flatten(days) == lines && WellSegmented(days)
    ensures days == OrganizeByDay(lines)
  {
    SegmentationsAgree(days, OrganizeByDay(lines));
  }

  lemma {:induction false} SegmentationsAgree(a: seq<seq<Line>>, b: seq<seq<Line>>)
    requires Flatten(a) == Flatten(b) && WellSegmented(a) && WellSegmented(b)
    ensures a == b
    decreases |a|
  {
    var lines := Flatten(a);
    if |a| > 0 && |b| > 0 {
      SegmentsFollowShifts(lines, a);
      SegmentsFollowShifts(lines, b);
      assert a[0] == b[0];
      assert lines == a[0] + Flatten(a[1..]) == b[0] + Flatten(b[1..]);
      assert Flatten(a[1..]) == lines[|a[0]|..] == Flatten(b[1..]);
      assert WellSegmented(a[1..]);
      assert WellSegmented(b[1..]);
      SegmentationsAgree(a[1..], b[1..]);
      assert a == [a[0]] + a[1..];
      assert b == [b[0]] + b[1..];
    }
  }

  /** The first shift of a well-segmented split runs up to the next shift-start line. */
  lemma SegmentsFollowShifts(lines: seq<Line>, days: seq<seq<Line>>)
    requires Flatten(days) == lines && WellSegmented(days) && |days| > 0
    ensures 1 <= |days[0]| <= |lines|
    ensures days[0] == lines[..NextShift(lines, 1)]
  {
    var first := days[0];
    assert lines == first + Flatten(days[1..]);
    if |days| > 1 {
      assert Flatten(days[1..]) == days[1] + Flatten(days[2..]);
      assert lines[|first|] == days[1][0];
    }
    assert forall t :: 1 <= t < |first| ==> lines[t] == first[t];
    NextShiftAt(lines, 1, |first|);
  }

  /** A guard's sleep/wake minutes, in order: `guard_sleep_logs` of line 70. */
  type SleepLog = map<nat, seq<nat>>

  /** `defaultdict(list)` lookup. */
  function Get(log: SleepLog, g: nat): seq<nat> {
    if g in log then log[g] else []
  }

  /**
   The guard id of a shift (line 72), or None where Python raises: the shift is empty or
   its first line is not a shift-start line.
   */
  function ShiftGuard(day: seq<Line>): Option<nat> {
    if |day| > 0 && StartsShift(day[0]) then Some(day[0].event.guard) else None
  }

  /** `int(entry[15:17])` for every line of a shift after the first (lines 73-74). */
  function Minutes(lines: seq<Line>): seq<nat> {
    seq(|lines|, k requires 0 <= k < |lines| => lines[k].minute)
  }

  /** The loop of lines 71-74 over the remaining shifts, starting from `log`. */
  function Aggregate(days: seq<seq<Line>>, log: SleepLog): Option<SleepLog>
    decreases |days|
  {
    if |days| == 0 then Some(log)
    else
      match ShiftGuard(days[0])
      case None => None
      case Some(g) => Aggregate(days[1..], Store(log, g, days[0]))
  }

  /**
   Lines 73-74 for one shift of guard `g`: its later minutes are appended to `g`'s list.
   The defaultdict creates `g`'s key only when the inner loop appends, so a shift with
   no later line leaves the log as it was.
   */
  function Store(log: SleepLog, g: nat, day: seq<Line>): SleepLog {
    if |day| > 1 then log[g := Get(log, g) + Minutes(day[1..])] else log
  }

  /** Reference: the ids of the shifts that have a line after the shift start. */
  function GuardsOf(days: seq<seq<Line>>): set<nat>
    decreases |days|
  {
    if |days| == 0 then {}
    else
      (match ShiftGuard(days[0]) case Some(g) => if |days[0]| > 1 then {g} else {} case None => {})
      + GuardsOf(days[1..])
  }

  /** Reference: the minutes of every later line of every shift of `g`, in log order. */
  function MinutesOf(days: seq<seq<Line>>, g: nat): seq<nat>
    decreases |days|
  {
    if |days| == 0 then []
    else (if ShiftGuard(days[0]) == Some(g) then Minutes(days[0][1..]) else []) + MinutesOf(days[1..], g)
  }

  /** Sum of the lengths of all lists in a sleep log. */
  ghost function TotalMinutes(log: SleepLog): nat
    decreases log.Keys
  {
    if log == map[] then 0
    else
      var g :| g in log;
      |log[g]| + TotalMinutes(log - {g})
  }

  lemma {:induction false} TotalMinutesRemove(log: SleepLog, g: nat)
    requires g in log
    ensures TotalMinutes(log) == |log[g]| + TotalMinutes(log - {g})
    decreases log.Keys
  {
    var h :| h in log && TotalMinutes(log) == |log[h]| + TotalMinutes(log - {h});
    if h != g {
      TotalMinutesRemove(log - {h}, g);
      TotalMinutesRemove(log - {g}, h);
      assert (log - {h}) - {g} == (log - {g}) - {h};
    }
  }

  /** Appending `ms` to one guard's list adds |ms| stored minutes. */
  lemma TotalMinutesAppend(log: SleepLog, g: nat, ms: seq<nat>)
    ensures TotalMinutes(log[g := Get(log, g) + ms]) == TotalMinutes(log) + |ms|
  {
    var log' := log[g := Get(log, g) + ms];
    TotalMinutesRemove(log', g);
    assert log' - {g} == log - {g};
    if g in log {
      TotalMinutesRemove(log, g);
    } else {
      assert log - {g} == log;
    }
  }

  /** The loop of lines 71-74 raises exactly when some shift has no guard id. */
  lemma {:induction false} AggregateFails(days: seq<seq<Line>>, log: SleepLog)
    ensures Aggregate(days, log).None? <==> exists i :: 0 <= i < |days| && ShiftGuard(days[i]).None?
    decreases |days|
  {
    if |days| > 0 {
      match ShiftGuard(days[0])
      case None =>
      case Some(g0) =>
        AggregateFails(days[1..], Store(log, g0, days[0]));
        assert forall i :: 1 <= i < |days| ==> days[1..][i - 1] == days[i];
    }
  }

  /** The generalised loop invariant of lines 71-74: the keys. */
  lemma {:induction false} AggregateKeys(days: seq<seq<Line>>, log: SleepLog)
    requires Aggregate(days, log).Some?
    ensures Aggregate(days, log).value.Keys == log.Keys + GuardsOf(days)
    decreases |days|
  {
    if |days| > 0 {
      var g0 := ShiftGuard(days[0]).value;
      AggregateKeys(days[1..], Store(log, g0, days[0]));
    }
  }

  /** Storing one shift extends its guard's list by the shift's later minutes and no other list. */
  lemma StoreGet(log: SleepLog, g0: nat, day: seq<Line>, g: nat)
    requires |day| > 0
    ensures Get(Store(log, g0, day), g) == Get(log, g) + (if g == g0 then Minutes(day[1..]) else [])
  {
    if |day| <= 1 {
      assert Minutes(day[1..]) == [];
    }
  }

  /** The generalised loop invariant of lines 71-74: the per-guard lists. */
  lemma {:induction false} AggregateLists(days: seq<seq<Line>>, log: SleepLog)
    requires Aggregate(days, log).Some?
    ensures forall g :: Get(Aggregate(days, log).value, g) == Get(log, g) + MinutesOf(days, g)
    decreases |days|
  {
    if |days| > 0 {
      var g0 := ShiftGuard(days[0]).value;
      var ms := Minutes(days[0][1..]);
      var log' := Store(log, g0, days[0]);
      AggregateLists(days[1..], log');
      var r := Aggregate(days, log).value;
      assert r == Aggregate(days[1..], log').value;
      forall g
        ensures Get(r, g) == Get(log, g) + MinutesOf(days, g)
      {
        var here := if g == g0 then ms else [];
        assert MinutesOf(days, g) == here + MinutesOf(days[1..], g);
        StoreGet(log, g0, days[0], g);
        assert Get(r, g) == (Get(log, g) + here) + MinutesOf(days[1..], g);
      }
    }
  }

  /** The generalised loop invariant of lines 71-74: every later line of a shift is stored once. */
  lemma {:induction false} AggregateTotal(days: seq<seq<Line>>, log: SleepLog)
    requires Aggregate(days, log).Some?
    ensures TotalMinutes(Aggregate(days, log).value) + |days| == TotalMinutes(log) + |Flatten(days)|
    decreases |days|
  {
    if |days| > 0 {
      var g0 := ShiftGuard(days[0]).value;
      var ms := Minutes(days[0][1..]);
      AggregateTotal(days[1..], Store(log, g0, days[0]));
      if |days[0]| > 1 {
        TotalMinutesAppend(log, g0, ms);
      }
    }
  }

  /**
   `organize_by_guard` (lines 69-75). It fails exactly when some shift does not open
   with a shift-start line; otherwise its keys are the guard ids of the shifts that have
   a line after the shift start (a guard who only ever starts shifts gets no key), each
   guard's list is the in-order concatenation of its shifts' later minutes, and every
   line but the first of each shift is stored once.
   */
  function OrganizeByGuard(days: seq<seq<Line>>): (r: Option<SleepLog>)
    ensures r.None? <==> exists i :: 0 <= i < |days| && ShiftGuard(days[i]).None?
    ensures r.Some? ==> r.value.Keys == GuardsOf(days)
    ensures r.Some? ==> forall g :: g in r.value ==> r.value[g] == MinutesOf(days, g)
    ensures r.Some? ==> forall g :: g !in r.value ==> MinutesOf(days, g) == []
    ensures r.Some? ==> TotalMinutes(r.value) + |days| == |Flatten(days)|
  {
    var r := Aggregate(days, map[]);
    AggregateFails(days, map[]);
    if r.Some? then
      AggregateKeys(days, map[]);
      AggregateLists(days, map[]);
      AggregateTotal(days, map[]);
      assert TotalMinutes(map[]) == 0;
      assert forall g :: g in r.value ==> r.value[g] == Get(r.value, g);
      r
    else
      r
  }

  /**
   The two steps together (line 92): organising a log fails exactly when it is not empty
   and its first line is not a shift-start line; otherwise it stores every line that is
   not a shift-start line.
   */
  lemma OrganizeLog(lines: seq<Line>)
    ensures OrganizeByGuard(OrganizeByDay(lines)).None? <==> |lines| > 0 && !StartsShift(lines[0])
    ensures OrganizeByGuard(OrganizeByDay(lines)).Some? ==>
      TotalMinutes(OrganizeByGuard(OrganizeByDay(lines)).value) + |OrganizeByDay(lines)| == |lines|
  {
    var days := OrganizeByDay(lines);
    if |lines| > 0 && StartsShift(lines[0]) {
      assert forall i :: 0 <= i < |days| ==> ShiftGuard(days[i]).Some?;
    }
    if |lines| > 0 && !StartsShift(lines[0]) {
      assert ShiftGuard(days[0]).None?;
    }
  }
}

=== FILE: sleep_stats.dfy ===
/**
 Sleep statistics and the two strategies (day4.py, lines 77-116).

 A guard's minute list is read in pairs, `zip(times[0::2], times[1::2])`: the minute
 the guard fell asleep and the minute it woke up, a half-open interval in which the
 wake-up minute counts as awake. A trailing unpaired minute is ignored.
 */
module SleepStats {
  import opened Wrappers
  import opened ShiftLog

  /** One sleep: asleep from minute `asleep` up to, not including, minute `awake`. */
  datatype Nap = Nap(asleep: nat, awake: nat)

  /** `zip(times[0::2], times[1::2])` (lines 80 and 88). */
  function Naps(times: seq<nat>): (naps: seq<Nap>)
    ensures |naps| == |times| / 2
    ensures forall i :: 0 <= i < |naps| ==> naps[i] == Nap(times[2 * i], times[2 * i + 1])
    decreases |times|
  {
    if |times| < 2 then [] else [Nap(times[0], times[1])] + Naps(times[2..])
  }

  /** Every nap ends no earlier than it starts. */
  predicate Ordered(naps: seq<Nap>) {
    forall i :: 0 <= i < |naps| ==> naps[i].asleep <= naps[i].awake
  }

  /** `sum(end - start for start, end in ...)` (line 80). */
  function Slept(naps: seq<Nap>): int
    decreases |naps|
  {
    if |naps| == 0 then 0
    else Slept(naps[..|naps| - 1]) + (naps[|naps| - 1].awake - naps[|naps| - 1].asleep)
  }

  /** Whether minute `m` lies in `range(nap.asleep, nap.awake)`. */
  function Covers(nap: Nap, m: nat): nat {
    if nap.asleep <= m < nap.awake then 1 else 0
  }

  /** The number of naps during which the guard is asleep at minute `m`. */
  function Coverage(naps: seq<Nap>, m: nat): nat
    decreases |naps|
  {
    if |naps| == 0 then 0
    else Coverage(naps[..|naps| - 1], m) + Covers(naps[|naps| - 1], m)
  }

  /** Total sleep is never negative when every nap is ordered. */
  lemma {:induction false} SleptNonNegative(naps: seq<Nap>)
    requires Ordered(naps)
    ensures Slept(naps) >= 0
    decreases |naps|
  {
    if |naps| > 0 {
      SleptNonNegative(naps[..|naps| - 1]);
    }
  }

  /** The sum of `Coverage(naps, m)` over the minutes m < bound. */
  function CoverageSum(naps: seq<Nap>, bound: nat): nat
    decreases bound
  {
    if bound == 0 then 0 else CoverageSum(naps, bound - 1) + Coverage(naps, bound - 1)
  }

  /** Without naps, every minute's count is 0. */
  lemma {:induction false} CoverageSumOfNone(naps: seq<Nap>, bound: nat)
    requires |naps| == 0
    ensures CoverageSum(naps, bound) == 0
    decreases bound
  {
    if bound > 0 {
      CoverageSumOfNone(naps, bound - 1);
    }
  }

  /** Minute by minute, one nap of [a, b) with a <= b <= bound contributes b - a. */
  lemma {:induction false} CoverageSumOfNap(nap: Nap, bound: nat)
    requires nap.asleep <= nap.awake
    ensures CoverageSum([nap], bound) ==
      if bound <= nap.asleep then 0
      else if bound <= nap.awake then bound - nap.asleep
      else nap.awake - nap.asleep
    decreases bound
  {
    if bound > 0 {
      CoverageSumOfNap(nap, bound - 1);
      assert [nap][..0] == [];
      assert Coverage([nap], bound - 1) == Covers(nap, bound - 1);
    }
  }

  /** Summing minute by minute splits over the last nap. */
  lemma {:induction false} CoverageSumSplit(naps: seq<Nap>, bound: nat)
    requires |naps| > 0
    ensures CoverageSum(naps, bound) ==
      CoverageSum(naps[..|naps| - 1], bound) + CoverageSum([naps[|naps| - 1]], bound)
    decreases bound
  {
    if bound > 0 {
      var last := naps[|naps| - 1];
      CoverageSumSplit(naps, bound - 1);
      assert [last][..0] == [];
      assert Coverage([last], bound - 1) == Covers(last, bound - 1);
    }
  }

  /**
   The minute-by-minute count agrees with the per-nap sum of `find_guard_mins_asleep`:
   summed over every minute, the coverage of ordered naps is the total time asleep.
   */
  lemma {:induction false} CoverageSumIsSlept(naps: seq<Nap>, bound: nat)
    requires Ordered(naps)
    requires forall i :: 0 <= i < |naps| ==> naps[i].awake <= bound
    ensures CoverageSum(naps, bound) == Slept(naps)
    decreases |naps|
  {
    if |naps| > 0 {
      var last, init := naps[|naps| - 1], naps[..|naps| - 1];
      assert forall i :: 0 <= i < |init| ==> init[i] == naps[i];
      CoverageSumSplit(naps, bound);
      CoverageSumOfNap(last, bound);
      assert last.asleep <= last.awake <= bound;
      assert CoverageSum([last], bound) == last.awake - last.asleep;
      CoverageSumIsSlept(init, bound);
      assert Slept(naps) == Slept(init) + (last.awake - last.asleep);
    } else {
      CoverageSumOfNone(naps, bound);
    }
  }

  /**
   `find_guard_mins_asleep` (lines 77-81): the same guards, each with its total time
   asleep, which is never negative for a guard whose naps are ordered.
   */
  function MinsAsleep(log: SleepLog): (totals: map<nat, int>)
    ensures totals.Keys == log.Keys
    ensures forall g :: g in log ==> totals[g] == Slept(Naps(log[g]))
    ensures forall g :: g in log && Ordered(Naps(log[g])) ==> totals[g] >= 0
  {
    var totals := map g | g in log :: Slept(Naps(log[g]));
    assert forall g :: g in log && Ordered(Naps(log[g])) ==> totals[g] >= 0 by {
      forall g | g in log && Ordered(Naps(log[g])) {
        SleptNonNegative(Naps(log[g]));
      }
    }
    totals
  }

  /** A guard whose total is at least every other guard's. */
  predicate IsMostAsleep(totals: map<nat, int>, g: nat) {
    g in totals && forall h :: h in totals ==> totals[h] <= totals[g]
  }

  /**
   `find_guard_most_asleep` (lines 83-84): `max` over the items by value. Python's
   `max` raises on an empty map; which of several maximal guards wins depends on dict
   iteration order, so any maximal one is allowed.
   */
  method GuardMostAsleep(totals: map<nat, int>) returns (r: Option<(nat, int)>)
    ensures r.None? <==> totals == map[]
    ensures r.Some? ==> IsMostAsleep(totals, r.value.0) && r.value.1 == totals[r.value.0]
  {
    if totals == map[] {
      return None;
    }
    var guard :| guard in totals;
    var todo := totals.Keys - {guard};
    while todo != {}
      invariant guard in totals && todo <= totals.Keys
      invariant forall h :: h in totals && h !in todo ==> totals[h] <= totals[guard]
      decreases todo
    {
      var h :| h in todo;
      if totals[h] > totals[guard] {
        guard := h;
      }
      todo := todo - {h};
    }
    r := Some((guard, totals[guard]));
  }

  /** `Counter` lookup: a minute never counted has count 0. */
  function CountOf(counter: map<nat, nat>, m: nat): nat {
    if m in counter then counter[m] else 0
  }

  /**
   The counting loop of lines 87-89: `counter.update(range(start, end))` for every nap.
   Each minute's count is the number of naps covering it, and only counted minutes are
   keys.
   */
  method CountMinutes(naps: seq<Nap>) returns (counter: map<nat, nat>)
    ensures forall m :: CountOf(counter, m) == Coverage(naps, m)
    ensures forall m :: m in counter ==> counter[m] > 0
  {
    counter := map[];
    var j := 0;
    while j < |naps|
      invariant j <= |naps|
      invariant forall m :: CountOf(counter, m) == Coverage(naps[..j], m)
      invariant forall m :: m in counter ==> counter[m] > 0
    {
      var nap := naps[j];
      var m := nap.asleep;
      while m < nap.awake
        invariant nap.asleep <= m
        invariant m <= nap.awake || m == nap.asleep
        invariant forall x: nat :: CountOf(counter, x) == Coverage(naps[..j], x) + (if nap.asleep <= x < m then 1 else 0)
        invariant forall x: nat :: x in counter ==> counter[x] > 0
      {
        counter := counter[m := CountOf(counter, m) + 1];
        m := m + 1;
      }
      assert naps[..j + 1][..j] == naps[..j];
      j := j + 1;
    }
    assert naps[..j] == naps;
  }

  /**
   `most_common(1)` with the `(0, 0)` default of line 90: a key of maximal count, or
   (0, 0) when nothing was counted. Ties go to whichever key iteration meets first.
   */
  method MostCommon(counter: map<nat, nat>) returns (minute: nat, count: nat)
    ensures counter == map[] ==> minute == 0 && count == 0
    ensures counter != map[] ==> minute in counter && count == counter[minute]
    ensures forall m :: m in counter ==> counter[m] <= count
  {
    if counter == map[] {
      return 0, 0;
    }
    minute :| minute in counter;
    count := counter[minute];
    var todo := counter.Keys - {minute};
    while todo != {}
      invariant minute in counter && count == counter[minute] && todo <= counter.Keys
      invariant forall m :: m in counter && m !in todo ==> counter[m] <= count
      decreases todo
    {
      var m :| m in todo;
      if counter[m] > count {
        minute, count := m, counter[m];
      }
      todo := todo - {m};
    }
  }

  /**
   A minute at which the guard is asleep at least as often as at any other; minute 0
   when the guard never sleeps.
   */
  ghost predicate IsBestMinute(naps: seq<Nap>, minute: nat) {
    && (forall m :: Coverage(naps, m) <= Coverage(naps, minute))
    && (Coverage(naps, minute) == 0 ==> minute == 0)
  }

  /**
   `find_min_most_likely_asleep` (lines 86-90): a most-slept minute and how many naps
   cover it, or (0, 0) when no nap covers any minute.
   */
  method FindMinMostLikelyAsleep(times: seq<nat>) returns (minute: nat, count: nat)
    ensures count == Coverage(Naps(times), minute)
    ensures IsBestMinute(Naps(times), minute)
    ensures (forall m :: Coverage(Naps(times), m) == 0) ==> minute == 0 && count == 0
  {
    var naps := Naps(times);
    var counter := CountMinutes(naps);
    minute, count := MostCommon(counter);
    assert forall m :: Coverage(naps, m) == CountOf(counter, m);
    if counter != map[] {
      assert count > 0;
    }
  }

  /** A guard/minute choice; the puzzle answer is the product of the two. */
  datatype Choice = Choice(guard: nat, minute: nat) {
    function Answer(): nat { guard * minute }
  }

  /**
   Strategy 1 (lines 93-97): the guard with the most total sleep, and that guard's most
   slept minute. `max` raises on an empty log.
   */
  method Strategy1(log: SleepLog) returns (choice: Option<Choice>)
    ensures choice.None? <==> log == map[]
    ensures choice.Some? ==> IsMostAsleep(MinsAsleep(log), choice.value.guard)
    ensures choice.Some? ==> IsBestMinute(Naps(log[choice.value.guard]), choice.value.minute)
  {
    var totals := MinsAsleep(log);
    var most := GuardMostAsleep(totals);
    if most.None? {
      assert log.Keys == {};
      return None;
    }
    var guard := most.value.0;
    var minute, _ := FindMinMostLikelyAsleep(log[guard]);
    choice := Some(Choice(guard, minute));
  }

  /** No guard is ever asleep at any minute. */
  ghost predicate NeverAsleep(log: SleepLog) {
    forall g, m :: g in log ==> Coverage(Naps(log[g]), m) == 0
  }

  /**
   `strategy_2` (lines 106-116): over all guards, a guard/minute pair whose count is at
   least every other guard's count at every minute. The running best changes only on
   a strictly greater count, starting from 0; when no guard ever sleeps the choice stays
   None and Python's `None * None` raises.
   */
  method Strategy2(log: SleepLog) returns (choice: Option<Choice>)
    ensures choice.None? <==> NeverAsleep(log)
    ensures choice.Some? ==> choice.value.guard in log
    ensures choice.Some? ==> IsBestMinute(Naps(log[choice.value.guard]), choice.value.minute)
    ensures choice.Some? ==> forall g, m :: g in log ==>
      Coverage(Naps(log[g]), m) <= Coverage(Naps(log[choice.value.guard]), choice.value.minute)
  {
    choice := None;
    var timesAsleep: nat := 0;
    var todo := log.Keys;
    while todo != {}
      invariant todo <= log.Keys
      invariant forall g, m :: g in log && g !in todo ==> Coverage(Naps(log[g]), m) <= timesAsleep
      invariant choice.None? ==> timesAsleep == 0
      invariant choice.Some? ==>
        && choice.value.guard in log
        && IsBestMinute(Naps(log[choice.value.guard]), choice.value.minute)
        && timesAsleep == Coverage(Naps(log[choice.value.guard]), choice.value.minute)
        && timesAsleep > 0
      decreases todo
    {
      var g :| g in todo;
      var minute, times := FindMinMostLikelyAsleep(log[g]);
      if times > timesAsleep {
        timesAsleep := times;
        choice := Some(Choice(g, minute));
      }
      todo := todo - {g};
    }
    if choice.Some? {
      var c := choice.value;
      assert Coverage(Naps(log[c.guard]), c.minute) > 0;
    }
  }
}

=== FILE: wrappers.dfy ===
/** The optional-value type used for the source's failure paths. */
module Wrappers {

  /** `None` stands for a Python exception that aborts the computation. */
  datatype Option<+T> = None | Some(value: T)
}
